=== FILE: README.md ===
# BookTrak customer workflow in Dafny

BookTrak is a small library backend with two roles: librarians maintain the
catalogue and read an issue report, and customers browse, save books for
later, fill a cart and check books out. This project models the workflow as
a state machine. The state is the catalogue (a map from book id to `Book`)
plus the caller's `Profile`, which holds a saved-for-later list, a cart and a
role. The model also covers the request validators and the two permission
gates in front of each transition, and it proves what each transition promises.

Modules (one per file):

- `Results`: `Option` and `Result`, used for optional fields and error returns.
- `Seqs`: generic list facts. `RemoveFirst` is Python's `list.remove`. `MapSeq` projects a list, and projection keeps permutations.
- `Models`: `Profile`, `Book`, the column limits, isbn uniqueness, and adding a book.
- `Permissions`: the librarian gate and the customer gate.
- `Serializers`: registration, login, the `book_id` and checkout validators, and the report and browse row shapes.
- `Catalog`: the report and browse views, with their three filter names and their sort orders.
- `Cart`: save-later, add-to-cart, remove-from-cart and checkout. Also the gated `Handle`, multi-request runs, and the invariants those runs keep.

Representation choices:

- Prices are integer cents. A decimal with two places is held exactly, so the bill total is an exact sum.
- Dates are integer day numbers. The issue date is an input.
- The authentication backend is an input (`AuthOutcome`): the user it found, if any, and whether that user is active.
- Database-assigned ids are inputs, and they are required to be unused.
- A catalogue query returns its rows in an order the database chooses. Each view therefore takes that row sequence (`listing`) as input. `Catalog.Enumerates` says when a listing covers the whole store.
- Every transition returns an `Outcome`: the next state plus a response. Whenever the response is an error, the next state is the old state. This is how the model expresses `transaction.atomic` and the early error returns.

A missing profile in remove-from-cart or checkout raises an uncaught exception, because those views use `.get`, and so does a failure inside the checkout loop. The model gives each of these an error value (`ProfileMissing`, `BookVanished`, `NotEnoughInCart`) with the state unchanged, as the rolled-back transaction leaves it.

## Model

| member | source | states |
|---|---|---|
| `Models.NewProfile` | BookTrak/models.py:12-14 | A new profile has the role it was created with, an empty saved list and an empty cart |
| `Models.NewBook` | BookTrak/models.py:21-27 | A new book carries the submitted fields, and its issue counter starts at 0 |
| `Models.TextErrors` | BookTrak/models.py:22-24 | A text column reports no error exactly when the value is non-blank and within its maximum length |
| `Models.CreateBook` | BookTrak/models.py:22-26 | Adding a book succeeds iff the title, author and isbn are non-blank and fit their columns (200, 100 and 13 characters), the price fits ten digits with two decimals, a given cover URL is at most 200 characters, and the isbn is not stored yet. A stored isbn always gives an `IsbnTaken` error, and an over-long cover URL always gives `TooLong(CoverImageUrl)`. On success only the new id is added, with counter 0, and isbn uniqueness and the column limits still hold |
| `Permissions.IsCustomer` | BookTrak/permissions.py:8-9 | The customer gate holds iff the caller is authenticated |
| `Permissions.IsLibrarian` | BookTrak/permissions.py:4-5 | The librarian gate holds iff the caller is authenticated, has a profile and that profile's role is librarian. It implies the customer gate |
| `Permissions.LibrarianPassesCustomerGate` | BookTrak/permissions.py:4-9 | Every caller the librarian gate admits is admitted by the customer gate |
| `Permissions.CustomerGateIgnoresProfile` | BookTrak/permissions.py:9 | Replacing the caller's profile, role included, never changes the customer gate's answer |
| `Permissions.AnonymousPassesNoGate` | BookTrak/permissions.py:4-9 | An unauthenticated caller fails both gates |
| `Serializers.ParseUserType` | BookTrak/serializers.py:15 | The role field accepts exactly `librarian` and `customer`. It yields librarian only for `librarian`, and customer when the field is left out |
| `Serializers.NormalizeEmailShape` | BookTrak/serializers.py:41-45 | The address the user manager stores has the submitted length, differs from it only by lower-cased characters, keeps its last `@` in place, and is the submitted address when there is no `@` |
| `Serializers.NormalizeEmailParts` | BookTrak/serializers.py:41-45 | With the last `@` at position `k`, the stored address keeps everything up to and including that `@` unchanged and is the lower-cased domain after it |
| `Serializers.NormalizeEmailIdempotent` | BookTrak/serializers.py:41-45 | Normalising a stored address again leaves it unchanged |
| `Serializers.ValidateRegistration` | BookTrak/serializers.py:12-34 | Registration is valid iff the username is non-blank, at most 150 characters and made of word characters and `.@+-`, the email is at most 254 characters, the password is non-blank and at most 128 characters, the confirmation is non-blank, the username and email (as submitted) are unused, the role is a valid choice, and the passwords match. A blank username is reported without a uniqueness error, a used email of valid length is always reported, and a password mismatch is reported only when every field passed, and then alone |
| `Serializers.Register` | BookTrak/serializers.py:25-48 | A mismatched password pair or a used email fails. Success adds an active account holding the normalised email and a profile with empty lists, whose role is the requested one (customer when none was given). No other profile changes |
| `Serializers.RegisterTwiceSharesEmail` | BookTrak/serializers.py:25-45 | Registering `b@X.io` twice under two usernames succeeds both times, and both accounts store `b@x.io`, so emails are not distinct |
| `Serializers.RegisterNormalized` | BookTrak/serializers.py:25-29 | With the uniqueness check applied to the normalised address, registration succeeds iff the fields are well formed, the username and the normalised email are unused, the role is a valid choice and the passwords match; a used normalised email fails, the account stores that address, no other profile changes, and distinct emails stay distinct |
| `Serializers.ValidateLogin` | BookTrak/serializers.py:56-68 | A missing or empty credential gives `MissingCredentials` regardless of the backend. An unknown user is rejected, and so is an inactive one. A user is returned only when both credentials are given and the backend found an active user, and it is that user |
| `Serializers.ValidateBookId` | BookTrak/serializers.py:98-115 | The save-later and cart `book_id` check accepts exactly the ids in the catalogue, returns the id unchanged, and otherwise reports `BookDoesNotExist` |
| `Serializers.ValidateBooksToIssue` | BookTrak/serializers.py:126-129 | The checkout list is accepted iff it is non-empty, and it is passed on unchanged, repeats included |
| `Serializers.ReportRowExposes` | BookTrak/serializers.py:81-85 | Two books give the same report row iff they agree on id, title, author and issue counter. The row carries exactly those four fields, under `bookId` and `totalIssues` |
| `Serializers.BrowseRowWithholdsIsbn` | BookTrak/serializers.py:90-93 | Two books give the same browse row iff they differ at most in isbn. The row carries every other field and never the isbn |
| `Seqs.AppendFresh` | BookTrak/views.py:160-163 | Appending an id that is not yet in a duplicate-free list keeps it duplicate-free |
| `Seqs.RemoveFirst` | BookTrak/views.py:218 | `list.remove` deletes exactly the first occurrence: one element shorter, the elements before and after in their old order, one copy fewer of the removed id |
| `Seqs.MapPermutation` | BookTrak/views.py:110 | Serializing two permutations of a queryset row by row gives two permutations of the serialized rows |
| `Catalog.Order` | BookTrak/views.py:101-107 | The result is a permutation of the query rows. When the filter selected an ordering, every pair appears in an order that ordering allows. When it selected none, the query order is kept |
| `Catalog.ViewsDifferOnlyOnAuthor` | BookTrak/views.py:101-135 | The report and browse views read every filter name alike except `author`. Only the three known names select a sort |
| `Catalog.BookReport` | BookTrak/views.py:96-116 | The filter echoes the request, defaulting to `most_issued`, and the total equals the number of rows. The rows are a permutation of the catalogue's report rows. They are non-increasing in issues for `most_issued` and non-decreasing for `least_issued`. For `author` they go by author, then by descending issues. Any other filter leaves the query order |
| `Catalog.BrowseBook` | BookTrak/views.py:124-144 | The same as the report for the browse rows, except that `author` ties are broken by ascending title |
| `Catalog.EnumerationSize` | BookTrak/views.py:114 | A listing that covers the whole store has one row per stored book, so the reported count is the catalogue's size |
| `Cart.Current` | BookTrak/views.py:158 | The get-or-create lookup sees the stored profile, or a fresh customer profile with empty lists |
| `Cart.SaveLater` | BookTrak/views.py:152-175 | Saving succeeds iff the book exists and is not yet saved. An already-saved id gives `AlreadySaved`, and a failure changes nothing. On success the id is appended at the end, the count is the old length plus one, the title is the book's, and a duplicate-free list stays duplicate-free |
| `Cart.SaveTwiceKeepsOne` | BookTrak/views.py:160-164 | Saving the same book twice refuses the second request and leaves exactly one copy in the saved list |
| `Cart.AddToCart` | BookTrak/views.py:183-202 | Adding succeeds iff the book exists, and it always appends. The cart grows by one, the added id's count grows by exactly one and every other id's count is unchanged. A failure changes nothing |
| `Cart.RemoveFromCart` | BookTrak/views.py:210-230 | Removal succeeds iff the book exists, the profile exists and the cart holds the id. Otherwise the error is `BookDoesNotExist`, `ProfileMissing` or `NotInCart` and nothing changes. On success exactly the first occurrence goes, the rest keep their order, the saved list and role are untouched, and the count is the old length minus one |
| `Cart.RemoveOneOfTwo` | BookTrak/views.py:217-218 | Removing 5 from the cart [5, 5, 7] leaves [5, 7] |
| `Cart.Missing` | BookTrak/views.py:247 | The missing list is empty iff every requested id is in the cart, and each listed id was requested and is not in the cart |
| `Cart.MissingCounts` | BookTrak/views.py:247 | An id not in the cart is listed as many times as it was requested. An id in the cart is not listed |
| `Cart.MissingConcat` | BookTrak/views.py:247 | The missing list of a concatenation is the two parts' missing lists in order, so the listed ids follow request order |
| `Cart.CountIssue` | BookTrak/views.py:268-269 | Issuing one copy raises that book's counter by one and leaves every other book and every other field as it was |
| `Cart.IssueAll` | BookTrak/views.py:262-279 | The transaction commits iff every requested book is stored and no id is requested more often than the cart holds it. On commit each counter rises by the id's multiplicity in the request and nothing else about any book changes. The cart loses exactly the request's multiset. There is one bill line per request entry, in request order, and the total is the sum of the requested prices, repeats counted. A failure is `BookVanished` or `NotEnoughInCart` |
| `Cart.Checkout` | BookTrak/views.py:238-293 | Checkout succeeds iff the list is non-empty, the profile exists, every requested book is stored and the request's multiset fits in the cart. An empty list gives `NoBookSelected`. Ids absent from the cart give `MissingBooks` with exactly `Missing` of the request. Every failure leaves the state unchanged. On success the counters, cart and bill are as `IssueAll` describes, with `total_books_issued` equal to the request length, the return date 14 days after the issue date, and the saved list and role unchanged |
| `Cart.CheckoutShortfallChangesNothing` | BookTrak/views.py:262-266 | A request that repeats an id more often than the cart holds it, with every id still in the cart, passes the membership check. It then fails inside the transaction and leaves the state unchanged |
| `Cart.CheckoutTwoCopies` | BookTrak/views.py:262-287 | Cart [5, 5] with book 5 at 10.00 and request [5, 5] gives a total of 20.00, the counter up by 2, an empty cart and a return date 14 days on |
| `Cart.CheckoutNamesAbsentBook` | BookTrak/views.py:247-253 | Cart [5] and request [5, 9] give the error listing [9] with the state unchanged |
| `Cart.Handle` | BookTrak/views.py:149-293 | Each customer request is refused with `Forbidden` when the customer gate fails. A request the gate admits is never refused with `Forbidden`: it reaches its operation, takes that operation's next state, succeeds exactly when the operation does and then carries the operation's reply or bill. Any error leaves the state unchanged. Only checkout touches the catalogue |
| `Cart.AdvancedKeepsStore` | BookTrak/views.py:268-269 | Raising issue counters keeps the set of books and every other field, so isbn uniqueness and the column limits survive checkout |
| `Cart.HandleKeepsInvariant` | BookTrak/views.py:160-269 | Every request keeps the catalogue well formed and the saved list duplicate-free, and it never lowers a counter |
| `Cart.RunPreservesInvariant` | BookTrak/views.py:160-269 | Any sequence of requests keeps the invariant, and every issue counter only grows |
| `Cart.RunCountsIssues` | BookTrak/views.py:262-269 | Over any run, a book's counter grows by exactly the number of times the run's successful checkouts requested it |

## Left out

- HTTP wiring is not modelled: URL routing (`BookTrak/urls.py`), the framework view classes, status codes and message texts. A response is modelled as success with a payload, or one error value.
- `Catalog.BookReport` and `Catalog.BrowseBook` do not run the librarian and customer gates. The gates are modelled as separate predicates (`Permissions`), and `Cart.Handle` applies the customer gate to the cart operations.
- `Catalog.BookReport`: the order among rows with equal sort keys is not promised, because the database decides it. The same holds for `Catalog.BrowseBook` and `Catalog.Order`, whose stand-in sort is an insertion sort.
- String order is code-point lexicographic order, as SQLite's BINARY collation compares. Other collations are not modelled.
- The librarian's list, retrieve, update and delete book endpoints are not modelled. They are framework-generated, with no local logic beyond the column constraints, and `Models.CreateBook` captures the length, blank, price and isbn-uniqueness constraints (URL syntax aside, as the next line says).
- The two role-echo views (`LibrarianView`, `CustomerView`) are not modelled, because they only echo the role.
- Token issuance, password hashing and real authentication are not modelled. `authenticate` is an input (`AuthOutcome`), and accounts keep no password.
- The framework's own field checks are not modelled: required and blank login fields before `validate`, email syntax, URL syntax of `cover_image_url`, and whitespace trimming. `Serializers.ValidateLogin` models the `validate` method alone.
- `Serializers.ValidateRegistration`: the username validator's `\w` is modelled as ASCII letters, digits and `_`, so non-ASCII letters the program accepts are refused. Missing request keys, email syntax and whitespace trimming are not modelled either; every field is a present, already trimmed string.
- `Serializers.Register`: the user manager's normalisation is modelled for emails with ASCII lower-casing only; Unicode lower-casing of the domain is not modelled. The NFKC normalisation of usernames is not modelled: the uniqueness check compares the username as submitted, so a username that differs from an existing one only before NFKC passes the check in the model, while the program stores the normalised name and fails at the database's unique constraint.
- `Cart.CountIssue`: issue counters and book ids are unbounded integers. The database column width is not modelled, so a checkout that takes a counter past the column's maximum succeeds in the model, and `Cart.RunCountsIssues` relies on this.
- Registration errors are an ordered list of error values, not the framework's per-field error dictionary.
- Transactions, isolation and concurrent checkouts are not modelled. `transaction.atomic` is a pure function that returns the new state or the old one.
- The clock is not modelled. The issue date is an input day number, and calendar formatting of the two dates is out.
- Float arithmetic is not modelled. Prices are exact integer cents, so `round(total, 2)` has nothing to round.
- The commented-out saved-books listing view at the end of `BookTrak/views.py` is not modelled, because it is not live code.

## Findings

| source | as written | input that shows it | evidently intended | confidence | as-written member | corrected member |
|---|---|---|---|---|---|---|
| BookTrak/serializers.py:25-29 | the email uniqueness check compares the submitted address exactly, while `create_user` stores it with the domain lower-cased | register `u1` with `b@X.io`, then `u2` with `b@X.io`: both succeed and both accounts hold `b@x.io` | no two accounts share an email; the check compares the address that will be stored | not executed | `Serializers.RegisterTwiceSharesEmail` | `Serializers.RegisterNormalized` |

=== FILE: cart.dfy ===
/**
 * The customer workflow as a state machine over the catalogue and the
 * caller's profile: save for later, add to cart, remove from cart, and
 * checkout. Every transition either commits a new state or reports an error
 * with the state exactly as it was; checkout's transaction is all-or-nothing.
 */
module Cart {
  import opened Results
  import opened Models
  import opened Seqs
  import opened Permissions
  import opened Serializers

  /** What a customer request reads and writes: the catalogue, and the caller's profile once it exists. */
  datatype State = State(books: Store, profile: Option<Profile>)

  datatype CartError =
    | Invalid(field: FieldError)          // the request body failed validation
    | AlreadySaved                        // save-later of an id already saved
    | NotInCart                           // removal of an id the cart does not hold
    | ProfileMissing                      // the caller has no profile, so the lookup raises
    | MissingBooks(missing: seq<BookId>)  // checkout ids the cart does not hold
    | BookVanished(id: BookId)            // a carted id no longer in the catalogue: the lookup raises, the transaction rolls back
    | NotEnoughInCart(id: BookId)         // an id requested more often than carted: the removal raises, the transaction rolls back
    | Forbidden                           // the customer gate refused the caller

  /** The reply of the three list operations: the list's new length and the book's title. */
  datatype Reply = Reply(count: nat, title: string)

  /** The state after a request, and what the request answered. */
  datatype Outcome<+R> = Outcome(state: State, response: Result<R, CartError>)

  /** The profile as a get-or-create lookup sees it: a fresh customer profile when none exists. */
  function Current(s: State): (p: Profile)
    ensures s.profile.None? ==> p == NewProfile(DefaultUserType)
    ensures s.profile.Some? ==> p == s.profile.value
  {
    match s.profile
    case None => NewProfile(DefaultUserType)
    case Some(p) => p
  }

  // ---------------------------------------------------------------------------
  // Save for later

  /**
   * Saves a stored book for later. An id already saved is refused; otherwise
   * it goes to the end of the list. A missing profile is created first.
   */
  function SaveLater(s: State, bookId: BookId): (r: Outcome<Reply>)
    ensures r.response.Ok? <==> bookId in s.books && bookId !in Current(s).savedBooks
    ensures r.response.Err? ==> r.state == s
    ensures bookId !in s.books ==> r.response == Err(Invalid(BookDoesNotExist))
    ensures bookId in s.books && bookId in Current(s).savedBooks ==> r.response == Err(AlreadySaved)
    ensures r.response.Ok? ==>
      && r.state.books == s.books
      && r.state.profile == Some(Current(s).(savedBooks := Current(s).savedBooks + [bookId]))
      && r.response.value == Reply(|Current(s).savedBooks| + 1, s.books[bookId].title)
    ensures NoDuplicates(Current(s).savedBooks) ==> NoDuplicates(Current(r.state).savedBooks)
  {
    match ValidateBookId(s.books, bookId)
    case Err(e) => Outcome(s, Err(Invalid(e)))
    case Ok(id) =>
      var p := Current(s);
      if id in p.savedBooks then
        Outcome(s.(profile := Some(p)), Err(AlreadySaved))
      else
        var saved := p.savedBooks + [id];
        AppendFresh(p.savedBooks, id);
        Outcome(s.(profile := Some(p.(savedBooks := saved))), Ok(Reply(|saved|, s.books[id].title)))
  }

  /** Saving the same book twice keeps one entry and refuses the second request. */
  lemma {:induction false} SaveTwiceKeepsOne(s: State, bookId: BookId)
    requires bookId in s.books && bookId !in Current(s).savedBooks
    ensures SaveLater(SaveLater(s, bookId).state, bookId).response == Err(AlreadySaved)
    ensures var saved := Current(SaveLater(SaveLater(s, bookId).state, bookId).state).savedBooks;
      multiset(saved)[bookId] == 1
  {
    var once := SaveLater(s, bookId).state;
    assert Current(once).savedBooks == Current(s).savedBooks + [bookId];
    assert multiset(Current(once).savedBooks) == multiset(Current(s).savedBooks) + multiset{bookId};
  }

  // ---------------------------------------------------------------------------
  // Cart add and remove

  /** Adds one unit of a stored book to the cart, whether or not it is already there. */
  function AddToCart(s: State, bookId: BookId): (r: Outcome<Reply>)
    ensures r.response.Ok? <==> bookId in s.books
    ensures r.response.Err? ==> r.state == s && r.response.error == Invalid(BookDoesNotExist)
    ensures r.response.Ok? ==>
      && r.state.books == s.books
      && r.state.profile == Some(Current(s).(cartItems := Current(s).cartItems + [bookId]))
      && r.response.value == Reply(|Current(s).cartItems| + 1, s.books[bookId].title)
    ensures r.response.Ok? ==>
      && multiset(Current(r.state).cartItems)[bookId] == multiset(Current(s).cartItems)[bookId] + 1
      && forall x :: x != bookId ==> multiset(Current(r.state).cartItems)[x] == multiset(Current(s).cartItems)[x]
  {
    match ValidateBookId(s.books, bookId)
    case Err(e) => Outcome(s, Err(Invalid(e)))
    case Ok(id) =>
      var p := Current(s);
      var cart := p.cartItems + [id];
      assert multiset(cart) == multiset(p.cartItems) + multiset{id};
      Outcome(s.(profile := Some(p.(cartItems := cart))), Ok(Reply(|cart|, s.books[id].title)))
  }

  /**
   * Removes one unit of a book from the cart: its first occurrence. An id the
   * cart does not hold is refused with "Book not in cart".
   */
  function RemoveFromCart(s: State, bookId: BookId): (r: Outcome<Reply>)
    ensures r.response.Ok? <==> bookId in s.books && s.profile.Some? && bookId in s.profile.value.cartItems
    ensures r.response.Err? ==> r.state == s
    ensures bookId !in s.books ==> r.response == Err(Invalid(BookDoesNotExist))
    ensures bookId in s.books && s.profile.None? ==> r.response == Err(ProfileMissing)
    ensures bookId in s.books && s.profile.Some? && bookId !in s.profile.value.cartItems ==>
      r.response == Err(NotInCart)
    ensures r.response.Ok? ==>
      var cart := s.profile.value.cartItems;
      var k := IndexOf(cart, bookId);
      && r.state.books == s.books
      && r.state.profile.Some?
      && r.state.profile.value == s.profile.value.(cartItems := cart[..k] + cart[k + 1..])
      && multiset(r.state.profile.value.cartItems) == multiset(cart) - multiset{bookId}
      && r.response.value == Reply(|cart| - 1, s.books[bookId].title)
  {
    match ValidateBookId(s.books, bookId)
    case Err(e) => Outcome(s, Err(Invalid(e)))
    case Ok(id) =>
      match s.profile
      case None => Outcome(s, Err(ProfileMissing))
      case Some(p) =>
        if id in p.cartItems then
          var cart := RemoveFirst(p.cartItems, id);
          var k := IndexOf(p.cartItems, id);
          assert cart == p.cartItems[..k] + p.cartItems[k + 1..];
          Outcome(s.(profile := Some(p.(cartItems := cart))), Ok(Reply(|cart|, s.books[id].title)))
        else
          Outcome(s, Err(NotInCart))
  }

  /** Removing 5 from the cart [5, 5, 7] leaves [5, 7]. */
  lemma RemoveOneOfTwo(s: State)
    requires 5 in s.books && s.profile.Some? && s.profile.value.cartItems == [5, 5, 7]
    ensures RemoveFromCart(s, 5).state.profile.value.cartItems == [5, 7]
  {
    assert IndexOf([5, 5, 7], 5) == 0;
  }

  // ---------------------------------------------------------------------------
  // Checkout

  /** A returned book is due this many days after the issue date. */
  const LoanDays := 14

  /** One line of the bill. */
  datatype IssuedBook = IssuedBook(title: string, author: string, price: Cents)

  /** The bill of a successful checkout; dates are day numbers. */
  datatype Bill = Bill(
    totalBooksIssued: nat,
    totalAmount: Cents,
    issueDate: int,
    returnDate: int,
    booksIssued: seq<IssuedBook>)

  function IssuedOf(b: Book): IssuedBook {
    IssuedBook(b.title, b.author, b.price)
  }

  /** The requested ids the cart does not hold, in request order and with repeats. */
  function Missing(req: seq<BookId>, cart: seq<BookId>): (m: seq<BookId>)
    ensures forall i :: 0 <= i < |m| ==> m[i] in req && m[i] !in cart
    ensures |m| == 0 <==> forall b :: b in req ==> b in cart
  {
    if |req| == 0 then []
    else
      assert req == [req[0]] + req[1..];
      assert forall b :: b in req <==> b == req[0] || b in req[1..];
      (if req[0] in cart then [] else [req[0]]) + Missing(req[1..], cart)
  }

  /** An id the cart lacks is listed as often as it was requested; an id the cart holds is not listed. */
  lemma {:induction false} MissingCounts(req: seq<BookId>, cart: seq<BookId>, x: BookId)
    ensures multiset(Missing(req, cart))[x] == if x in cart then 0 else multiset(req)[x]
  {
    if |req| > 0 {
      assert req == [req[0]] + req[1..];
      MissingCounts(req[1..], cart, x);
    }
  }

  /** The missing ids of a concatenation are those of each part, so their order is the request's. */
  lemma {:induction false} MissingConcat(a: seq<BookId>, b: seq<BookId>, cart: seq<BookId>)
    ensures Missing(a + b, cart) == Missing(a, cart) + Missing(b, cart)
  {
    if |a| == 0 {
      assert a + b == b;
    } else {
      assert (a + b)[0] == a[0];
      assert (a + b)[1..] == a[1..] + b;
      MissingConcat(a[1..], b, cart);
    }
  }

  /** The bill total: the price of every requested id, repeats counted. */
  function SumPrices(books: Store, req: seq<BookId>): Cents
    requires AllStored(books, req)
  {
    if |req| == 0 then 0 else books[req[0]].price + SumPrices(books, req[1..])
  }

  /** The total depends only on the prices of the requested books. */
  lemma {:induction false} SumPricesFrame(books: Store, other: Store, req: seq<BookId>)
    requires AllStored(books, req) && AllStored(other, req)
    requires forall i :: 0 <= i < |req| ==> books[req[i]].price == other[req[i]].price
    ensures SumPrices(books, req) == SumPrices(other, req)
  {
    if |req| > 0 {
      SumPricesFrame(books, other, req[1..]);
    }
  }

  /** What the checkout transaction has produced when it commits. */
  datatype Issue = Issue(books: Store, cart: seq<BookId>, issued: seq<IssuedBook>, total: Cents)

  /** Every requested id names a stored book. */
  predicate AllStored(books: Store, req: seq<BookId>) {
    forall i :: 0 <= i < |req| ==> req[i] in books
  }

  /** Each counter of `after` is that of `books` plus the id's multiplicity in `req`; nothing else changed. */
  predicate CountersAdvanced(books: Store, req: seq<BookId>, after: Store) {
    && after.Keys == books.Keys
    && forall id :: id in books ==>
         after[id] == books[id].(timesIssued := books[id].timesIssued + multiset(req)[id])
  }

  /** One bill line per requested id, in request order. */
  predicate BillLines(books: Store, req: seq<BookId>, issued: seq<IssuedBook>)
    requires AllStored(books, req)
  {
    |issued| == |req| && forall i :: 0 <= i < |req| ==> issued[i] == IssuedOf(books[req[i]])
  }

  /**
   * `issue` is what issuing `req` against `books` and `cart` must produce:
   * the counters advanced, the request's units taken out of the cart, the
   * bill lines in request order, and the prices summed.
   */
  predicate Commits(books: Store, cart: seq<BookId>, req: seq<BookId>, issue: Issue) {
    && AllStored(books, req)
    && CountersAdvanced(books, req, issue.books)
    && multiset(issue.cart) == multiset(cart) - multiset(req)
    && BillLines(books, req, issue.issued)
    && issue.total == SumPrices(books, req)
  }

  /** The catalogue after one more copy of `id` has been issued. */
  function CountIssue(books: Store, id: BookId): (r: Store)
    requires id in books
    ensures r.Keys == books.Keys
    ensures r[id] == books[id].(timesIssued := books[id].timesIssued + 1)
    ensures forall k :: k in books && k != id ==> r[k] == books[k]
  {
    books[id := books[id].(timesIssued := books[id].timesIssued + 1)]
  }

  lemma StoredStep(books: Store, req: seq<BookId>)
    requires |req| > 0 && req[0] in books
    ensures AllStored(CountIssue(books, req[0]), req[1..]) <==> AllStored(books, req)
  {
    assert forall i :: 0 < i < |req| ==> req[i] == req[1..][i - 1];
  }

  lemma CountersStep(books: Store, req: seq<BookId>, after: Store)
    requires |req| > 0 && req[0] in books
    requires CountersAdvanced(CountIssue(books, req[0]), req[1..], after)
    ensures CountersAdvanced(books, req, after)
  {
    assert req == [req[0]] + req[1..];
    assert multiset(req) == multiset{req[0]} + multiset(req[1..]);
  }

  lemma CartStep(cart: seq<BookId>, req: seq<BookId>, after: seq<BookId>)
    requires |req| > 0 && req[0] in cart
    requires multiset(after) == multiset(RemoveFirst(cart, req[0])) - multiset(req[1..])
    ensures multiset(after) == multiset(cart) - multiset(req)
  {
    assert req == [req[0]] + req[1..];
    assert multiset(req) == multiset{req[0]} + multiset(req[1..]);
  }

  lemma BillStep(books: Store, req: seq<BookId>, issued: seq<IssuedBook>)
    requires |req| > 0 && req[0] in books && AllStored(books, req)
    requires AllStored(CountIssue(books, req[0]), req[1..])
    requires BillLines(CountIssue(books, req[0]), req[1..], issued)
    ensures BillLines(books, req, [IssuedOf(books[req[0]])] + issued)
  {
    var counted := CountIssue(books, req[0]);
    var lines := [IssuedOf(books[req[0]])] + issued;
    forall i | 0 <= i < |req|
      ensures lines[i] == IssuedOf(books[req[i]])
    {
      if i > 0 {
        assert req[i] == req[1..][i - 1];
        assert issued[i - 1] == IssuedOf(counted[req[i]]);
      }
    }
  }

  lemma TotalStep(books: Store, req: seq<BookId>, total: Cents)
    requires |req| > 0 && req[0] in books && AllStored(books, req)
    requires AllStored(CountIssue(books, req[0]), req[1..])
    requires total == SumPrices(CountIssue(books, req[0]), req[1..])
    ensures books[req[0]].price + total == SumPrices(books, req)
  {
    SumPricesFrame(books, CountIssue(books, req[0]), req[1..]);
  }

  /** Issuing the head of a request in front of an issue of its tail commits the whole request. */
  function Extend(books: Store, cart: seq<BookId>, req: seq<BookId>, done: Issue): (r: Issue)
    requires |req| > 0 && req[0] in books && req[0] in cart
    requires Commits(CountIssue(books, req[0]), RemoveFirst(cart, req[0]), req[1..], done)
    ensures Commits(books, cart, req, r)
  {
    StoredStep(books, req);
    CountersStep(books, req, done.books);
    CartStep(cart, req, done.cart);
    BillStep(books, req, done.issued);
    TotalStep(books, req, done.total);
    Issue(done.books, done.cart, [IssuedOf(books[req[0]])] + done.issued, books[req[0]].price + done.total)
  }

  /** With the head of the request in the cart, the tail fits the rest of the cart iff the request fits the cart. */
  lemma FitsStep(cart: seq<BookId>, req: seq<BookId>)
    requires |req| > 0 && req[0] in cart
    ensures multiset(req[1..]) <= multiset(RemoveFirst(cart, req[0])) <==> multiset(req) <= multiset(cart)
  {
    assert req == [req[0]] + req[1..];
    assert multiset(req) == multiset(req[1..]) + multiset{req[0]};
  }

  /**
   * The body of the checkout transaction: for each requested id in turn,
   * fetch the book, take one unit out of the cart, count one more issue and
   * add a bill line. Any failing step fails the whole transaction.
   */
  function IssueAll(books: Store, cart: seq<BookId>, req: seq<BookId>): (r: Result<Issue, CartError>)
    ensures r.Ok? <==> AllStored(books, req) && multiset(req) <= multiset(cart)
    ensures r.Err? ==> r.error.BookVanished? || r.error.NotEnoughInCart?
    ensures r.Ok? ==> Commits(books, cart, req, r.value)
    decreases |req|
  {
    if |req| == 0 then Ok(Issue(books, cart, [], 0))
    else
      var id := req[0];
      if id !in books then Err(BookVanished(id))
      else if id !in cart then
        assert multiset(req)[id] > 0;
        Err(NotEnoughInCart(id))
      else
        FitsStep(cart, req);
        StoredStep(books, req);
        match IssueAll(CountIssue(books, id), RemoveFirst(cart, id), req[1..])
        case Err(e) => Err(e)
        case Ok(done) => Ok(Extend(books, cart, req, done))
  }

  /**
   * `r` is a successful checkout of `req` from state `s` on `issueDate`: every
   * counter advanced by the id's multiplicity in the request, the request's
   * units taken out of the cart with the rest of the profile untouched, and a
   * bill with one line per requested id, the prices summed and a return date
   * `LoanDays` after the issue date.
   */
  predicate CheckedOut(s: State, req: seq<BookId>, issueDate: int, r: Outcome<Bill>) {
    && s.profile.Some?
    && AllStored(s.books, req)
    && r.response.Ok?
    && r.state.books.Keys == s.books.Keys
    && (forall id :: id in s.books ==>
          r.state.books[id] == s.books[id].(timesIssued := s.books[id].timesIssued + multiset(req)[id]))
    && r.state.profile.Some?
    && r.state.profile.value.savedBooks == s.profile.value.savedBooks
    && r.state.profile.value.userType == s.profile.value.userType
    && multiset(r.state.profile.value.cartItems) == multiset(s.profile.value.cartItems) - multiset(req)
    && var bill := r.response.value;
       && bill.totalBooksIssued == |req|
       && bill.totalAmount == SumPrices(s.books, req)
       && bill.issueDate == issueDate
       && bill.returnDate == issueDate + LoanDays
       && |bill.booksIssued| == |req|
       && forall i :: 0 <= i < |req| ==> bill.booksIssued[i] == IssuedOf(s.books[req[i]])
  }

  /** The state and bill a committed transaction leaves behind. */
  function Finish(s: State, p: Profile, req: seq<BookId>, issue: Issue, issueDate: int): (r: Outcome<Bill>)
    requires s.profile == Some(p) && Commits(s.books, p.cartItems, req, issue)
    ensures CheckedOut(s, req, issueDate, r)
  {
    var bill := Bill(|issue.issued|, issue.total, issueDate, issueDate + LoanDays, issue.issued);
    Outcome(State(issue.books, Some(p.(cartItems := issue.cart))), Ok(bill))
  }

  /** Checkout once the request is non-empty and the profile exists: the membership check, then the transaction. */
  function Transact(s: State, p: Profile, req: seq<BookId>, issueDate: int): (r: Outcome<Bill>)
    requires s.profile == Some(p)
    ensures r.response.Ok? <==> AllStored(s.books, req) && multiset(req) <= multiset(p.cartItems)
    ensures r.response.Err? ==> r.state == s
    ensures (exists b :: b in req && b !in p.cartItems) ==> r.response == Err(MissingBooks(Missing(req, p.cartItems)))
    ensures r.response.Ok? ==> CheckedOut(s, req, issueDate, r)
  {
    var missing := Missing(req, p.cartItems);
    if |missing| > 0 then
      assert missing[0] in req && multiset(req)[missing[0]] > 0;
      Outcome(s, Err(MissingBooks(missing)))
    else
      match IssueAll(s.books, p.cartItems, req)
      case Err(e) => Outcome(s, Err(e))
      case Ok(issue) => Finish(s, p, req, issue, issueDate)
  }

  /**
   * Checkout: the request must name at least one id, every id must be in the
   * cart, and then the transaction issues the ids in request order. When it
   * fails, neither the cart nor any counter has changed.
   */
  function Checkout(s: State, booksToIssue: seq<BookId>, issueDate: int): (r: Outcome<Bill>)
    ensures r.response.Ok? <==>
      && |booksToIssue| > 0
      && s.profile.Some?
      && AllStored(s.books, booksToIssue)
      && multiset(booksToIssue) <= multiset(s.profile.value.cartItems)
    ensures r.response.Err? ==> r.state == s
    ensures |booksToIssue| == 0 ==> r.response == Err(Invalid(NoBookSelected))
    ensures |booksToIssue| > 0 && s.profile.Some? && (exists b :: b in booksToIssue && b !in s.profile.value.cartItems) ==>
      r.response == Err(MissingBooks(Missing(booksToIssue, s.profile.value.cartItems)))
    ensures r.response.Ok? ==> CheckedOut(s, booksToIssue, issueDate, r)
  {
    match ValidateBooksToIssue(booksToIssue)
    case Err(e) => Outcome(s, Err(Invalid(e)))
    case Ok(req) =>
      match s.profile
      case None => Outcome(s, Err(ProfileMissing))
      case Some(p) => Transact(s, p, req, issueDate)
  }

  /**
   * A request that repeats an id more often than the cart holds it passes the
   * membership check, fails inside the transaction, and changes nothing.
   */
  lemma CheckoutShortfallChangesNothing(s: State, booksToIssue: seq<BookId>, issueDate: int, id: BookId)
    requires |booksToIssue| > 0 && s.profile.Some?
    requires forall b :: b in booksToIssue ==> b in s.profile.value.cartItems
    requires multiset(booksToIssue)[id] > multiset(s.profile.value.cartItems)[id]
    ensures Checkout(s, booksToIssue, issueDate).response.Err?
    ensures Checkout(s, booksToIssue, issueDate).response.error.BookVanished?
         || Checkout(s, booksToIssue, issueDate).response.error.NotEnoughInCart?
    ensures Checkout(s, booksToIssue, issueDate).state == s
  {
  }

  /** Two carted copies of a book priced 10.00, both requested: billed 20.00, counted twice, cart emptied. */
  lemma CheckoutTwoCopies(s: State, issueDate: int)
    requires 5 in s.books && s.books[5].price == 1000
    requires s.profile.Some? && s.profile.value.cartItems == [5, 5]
    ensures var r := Checkout(s, [5, 5], issueDate);
      && r.response.Ok?
      && r.response.value.totalAmount == 2000
      && r.response.value.returnDate == issueDate + 14
      && r.state.books[5].timesIssued == s.books[5].timesIssued + 2
      && r.state.profile.value.cartItems == []
  {
    var r := Checkout(s, [5, 5], issueDate);
    assert AllStored(s.books, [5, 5]);
    assert SumPrices(s.books, [5, 5]) == 2000;
    assert multiset(r.state.profile.value.cartItems) == multiset{};
  }

  /** Requesting an id the cart lacks names it and leaves everything as it was. */
  lemma CheckoutNamesAbsentBook(s: State, issueDate: int)
    requires 5 in s.books && 9 in s.books
    requires s.profile.Some? && s.profile.value.cartItems == [5]
    ensures Checkout(s, [5, 9], issueDate) == Outcome(s, Err(MissingBooks([9])))
  {
    assert 9 !in [5] && 5 in [5];
    assert Missing([5, 9], [5]) == [9] by {
      assert [5, 9][1..] == [9];
      assert Missing([9], [5]) == [9] + Missing([], [5]);
    }
  }

  // ---------------------------------------------------------------------------
  // The workflow as a whole

  datatype Request =
    | SaveLaterRequest(bookId: BookId)
    | AddToCartRequest(bookId: BookId)
    | RemoveFromCartRequest(bookId: BookId)
    | CheckoutRequest(booksToIssue: seq<BookId>, issueDate: int)

  datatype Response = Saved(reply: Reply) | Added(reply: Reply) | Removed(reply: Reply) | Issued(bill: Bill)

  function Wrap<R>(o: Outcome<R>, f: R -> Response): Outcome<Response> {
    match o.response
    case Ok(v) => Outcome(o.state, Ok(f(v)))
    case Err(e) => Outcome(o.state, Err(e))
  }

  /** What the workflow keeps true: a well-formed catalogue and a saved list without repeats. */
  predicate Invariant(s: State) {
    && WellFormedStore(s.books)
    && (s.profile.Some? ==> NoDuplicates(s.profile.value.savedBooks))
  }

  /** `after` holds the same books as `before`, with counters that may only have grown. */
  predicate CountersOnlyGrow(before: Store, after: Store) {
    && after.Keys == before.Keys
    && forall id :: id in before ==>
         && after[id].timesIssued >= before[id].timesIssued
         && after[id] == before[id].(timesIssued := after[id].timesIssued)
  }

  /** The state a request leaves, whatever it answered. */
  function Effect(s: State, req: Request): State {
    match req
    case SaveLaterRequest(id) => SaveLater(s, id).state
    case AddToCartRequest(id) => AddToCart(s, id).state
    case RemoveFromCartRequest(id) => RemoveFromCart(s, id).state
    case CheckoutRequest(ids, day) => Checkout(s, ids, day).state
  }

  function Answer(s: State, req: Request): Result<Response, CartError> {
    match req
    case SaveLaterRequest(id) => Wrap(SaveLater(s, id), (v: Reply) => Saved(v)).response
    case AddToCartRequest(id) => Wrap(AddToCart(s, id), (v: Reply) => Added(v)).response
    case RemoveFromCartRequest(id) => Wrap(RemoveFromCart(s, id), (v: Reply) => Removed(v)).response
    case CheckoutRequest(ids, day) => Wrap(Checkout(s, ids, day), (v: Bill) => Issued(v)).response
  }

  /** One customer request, behind the customer gate. */
  function Handle(s: State, authenticated: bool, req: Request): (r: Outcome<Response>)
    ensures !IsCustomer(Caller(authenticated, s.profile)) ==> r == Outcome(s, Err(Forbidden))
    ensures r.response.Err? ==> r.state == s
    ensures !req.CheckoutRequest? ==> r.state.books == s.books
    ensures IsCustomer(Caller(authenticated, s.profile)) ==> r.response != Err(Forbidden)
    ensures IsCustomer(Caller(authenticated, s.profile)) && req.SaveLaterRequest? ==>
      var o := SaveLater(s, req.bookId);
      && r.state == o.state
      && (r.response.Ok? <==> o.response.Ok?)
      && (r.response.Ok? ==> r.response.value == Saved(o.response.value))
    ensures IsCustomer(Caller(authenticated, s.profile)) && req.AddToCartRequest? ==>
      var o := AddToCart(s, req.bookId);
      && r.state == o.state
      && (r.response.Ok? <==> o.response.Ok?)
      && (r.response.Ok? ==> r.response.value == Added(o.response.value))
    ensures IsCustomer(Caller(authenticated, s.profile)) && req.RemoveFromCartRequest? ==>
      var o := RemoveFromCart(s, req.bookId);
      && r.state == o.state
      && (r.response.Ok? <==> o.response.Ok?)
      && (r.response.Ok? ==> r.response.value == Removed(o.response.value))
    ensures IsCustomer(Caller(authenticated, s.profile)) && req.CheckoutRequest? ==>
      var o := Checkout(s, req.booksToIssue, req.issueDate);
      && r.state == o.state
      && (r.response.Ok? <==> o.response.Ok?)
      && (r.response.Ok? ==> r.response.value == Issued(o.response.value))
  {
    if !IsCustomer(Caller(authenticated, s.profile)) then Outcome(s, Err(Forbidden))
    else Outcome(Effect(s, req), Answer(s, req))
  }

  /** Issuing only raises counters, so the catalogue stays well formed. */
  lemma AdvancedKeepsStore(books: Store, req: seq<BookId>, after: Store)
    requires CountersAdvanced(books, req, after)
    ensures CountersOnlyGrow(books, after)
    ensures WellFormedStore(books) ==> WellFormedStore(after)
  {
    assert forall id :: id in after ==> ValidBook(after[id]) == ValidBook(books[id]);
  }

  /** Each request keeps the invariant and never lowers a counter. */
  lemma HandleKeepsInvariant(s: State, authenticated: bool, req: Request)
    requires Invariant(s)
    ensures Invariant(Handle(s, authenticated, req).state)
    ensures CountersOnlyGrow(s.books, Handle(s, authenticated, req).state.books)
  {
    var next := Handle(s, authenticated, req).state;
    if next != s && req.CheckoutRequest? {
      AdvancedKeepsStore(s.books, req.booksToIssue, next.books);
    }
  }

  /** Runs a sequence of requests, each on the state the previous one left. */
  function Run(s: State, authenticated: bool, reqs: seq<Request>): State
    decreases |reqs|
  {
    if |reqs| == 0 then s else Run(Handle(s, authenticated, reqs[0]).state, authenticated, reqs[1..])
  }

  /** The units issued by the successful checkouts of a run. */
  function IssuedDuring(s: State, authenticated: bool, reqs: seq<Request>): multiset<BookId>
    decreases |reqs|
  {
    if |reqs| == 0 then multiset{}
    else
      var o := Handle(s, authenticated, reqs[0]);
      var here := if reqs[0].CheckoutRequest? && o.response.Ok? then multiset(reqs[0].booksToIssue) else multiset{};
      here + IssuedDuring(o.state, authenticated, reqs[1..])
  }

  /** No sequence of requests breaks the invariant or lowers a counter. */
  lemma {:induction false} RunPreservesInvariant(s: State, authenticated: bool, reqs: seq<Request>)
    requires Invariant(s)
    ensures Invariant(Run(s, authenticated, reqs))
    ensures CountersOnlyGrow(s.books, Run(s, authenticated, reqs).books)
    decreases |reqs|
  {
    if |reqs| > 0 {
      var next := Handle(s, authenticated, reqs[0]).state;
      HandleKeepsInvariant(s, authenticated, reqs[0]);
      RunPreservesInvariant(next, authenticated, reqs[1..]);
    }
  }

  /** Over any run, each counter grows by exactly the units the run's successful checkouts issued. */
  lemma {:induction false} RunCountsIssues(s: State, authenticated: bool, reqs: seq<Request>, id: BookId)
    requires id in s.books
    ensures id in Run(s, authenticated, reqs).books
    ensures Run(s, authenticated, reqs).books[id].timesIssued
         == s.books[id].timesIssued + IssuedDuring(s, authenticated, reqs)[id]
    decreases |reqs|
  {
    if |reqs| > 0 {
      var next := Handle(s, authenticated, reqs[0]).state;
      RunCountsIssues(next, authenticated, reqs[1..], id);
    }
  }
}

=== FILE: catalog.dfy ===
/**
 * The read-only catalogue views: the librarian's issue report and the
 * customer's browse list. Both sort the whole catalogue under a filter name;
 * they share `most_issued` and `least_issued` but break `author` ties
 * differently. The database sorts; here an insertion sort stands in for it and
 * only the order the keys impose is promised, not the order among ties.
 */
module Catalog {
  import opened Results
  import opened Models
  import opened Seqs
  import opened Serializers

  // ---------------------------------------------------------------------------
  // String collation: code-point lexicographic order

  /** `a` sorts no later than `b`: a prefix comes first, otherwise the first differing character decides. */
  predicate StrLe(a: string, b: string) {
    if |a| == 0 then true
    else if |b| == 0 then false
    else if a[0] != b[0] then a[0] < b[0]
    else StrLe(a[1..], b[1..])
  }

  predicate StrLt(a: string, b: string) {
    StrLe(a, b) && a != b
  }

  lemma {:induction false} StrLeReflexive(a: string)
    ensures StrLe(a, a)
  {
    if |a| > 0 {
      StrLeReflexive(a[1..]);
    }
  }

  lemma {:induction false} StrLeTotal(a: string, b: string)
    ensures StrLe(a, b) || StrLe(b, a)
  {
    if |a| > 0 && |b| > 0 && a[0] == b[0] {
      StrLeTotal(a[1..], b[1..]);
    }
  }

  lemma {:induction false} StrLeAntisymmetric(a: string, b: string)
    requires StrLe(a, b) && StrLe(b, a)
    ensures a == b
  {
    if |a| > 0 && |b| > 0 {
      StrLeAntisymmetric(a[1..], b[1..]);
      assert a == [a[0]] + a[1..] && b == [b[0]] + b[1..];
    }
  }

  lemma {:induction false} StrLeTransitive(a: string, b: string, c: string)
    requires StrLe(a, b) && StrLe(b, c)
    ensures StrLe(a, c)
  {
    if |a| > 0 && |b| > 0 && |c| > 0 && a[0] == b[0] && b[0] == c[0] {
      StrLeTransitive(a[1..], b[1..], c[1..]);
    }
  }

  // ---------------------------------------------------------------------------
  // Orderings

  /** The sort keys the views ask the database for. */
  datatype Ordering =
    | MostIssued              // descending times_issued
    | LeastIssued             // ascending times_issued
    | AuthorThenMostIssued    // ascending author, then descending times_issued
    | AuthorThenTitle         // ascending author, then ascending title

  /** `x` may be listed before `y` under ordering `o`. */
  predicate Precedes(o: Ordering, x: Listed, y: Listed) {
    match o
    case MostIssued => x.book.timesIssued >= y.book.timesIssued
    case LeastIssued => x.book.timesIssued <= y.book.timesIssued
    case AuthorThenMostIssued =>
      StrLt(x.book.author, y.book.author)
      || (x.book.author == y.book.author && x.book.timesIssued >= y.book.timesIssued)
    case AuthorThenTitle =>
      StrLt(x.book.author, y.book.author)
      || (x.book.author == y.book.author && StrLe(x.book.title, y.book.title))
  }

  lemma PrecedesTotal(o: Ordering, x: Listed, y: Listed)
    ensures Precedes(o, x, y) || Precedes(o, y, x)
  {
    StrLeTotal(x.book.author, y.book.author);
    StrLeTotal(x.book.title, y.book.title);
  }

  lemma PrecedesTransitive(o: Ordering, x: Listed, y: Listed, z: Listed)
    requires Precedes(o, x, y) && Precedes(o, y, z)
    ensures Precedes(o, x, z)
  {
    var a, b, c := x.book.author, y.book.author, z.book.author;
    if o.AuthorThenMostIssued? || o.AuthorThenTitle? {
      if StrLt(a, b) && StrLt(b, c) {
        StrLeTransitive(a, b, c);
        if a == c {
          StrLeAntisymmetric(a, b);
        }
      }
      if o.AuthorThenTitle? && a == b && b == c {
        StrLeTransitive(x.book.title, y.book.title, z.book.title);
      }
    }
  }

  predicate Sorted(o: Ordering, s: seq<Listed>) {
    forall i, j :: 0 <= i < j < |s| ==> Precedes(o, s[i], s[j])
  }

  /** An element that may precede the head of a sorted list may precede all of it. */
  lemma PrecedesAll(o: Ordering, x: Listed, s: seq<Listed>)
    requires |s| > 0 && Sorted(o, s) && Precedes(o, x, s[0])
    ensures forall j :: 0 <= j < |s| ==> Precedes(o, x, s[j])
  {
    forall j | 0 < j < |s|
      ensures Precedes(o, x, s[j])
    {
      PrecedesTransitive(o, x, s[0], s[j]);
    }
  }

  /** A head that may precede every element of a sorted tail gives a sorted list. */
  lemma ConsSorted(o: Ordering, h: Listed, t: seq<Listed>)
    requires Sorted(o, t)
    requires forall k :: 0 <= k < |t| ==> Precedes(o, h, t[k])
    ensures Sorted(o, [h] + t)
  {
  }

  /** The head of a sorted list may precede every value of its tail. */
  lemma SortedHead(o: Ordering, s: seq<Listed>)
    requires |s| > 0 && Sorted(o, s)
    ensures forall y :: y in multiset(s[1..]) ==> Precedes(o, s[0], y)
  {
    forall y | y in multiset(s[1..])
      ensures Precedes(o, s[0], y)
    {
      var j :| 0 <= j < |s[1..]| && s[1..][j] == y;
      assert s[j + 1] == y;
    }
  }

  /** Inserting behind a head that `x` may not precede keeps the list sorted. */
  lemma InsertStep(o: Ordering, x: Listed, s: seq<Listed>, t: seq<Listed>)
    requires |s| > 0 && Sorted(o, s) && !Precedes(o, x, s[0])
    requires Sorted(o, t) && multiset(t) == multiset(s[1..]) + multiset{x}
    ensures Sorted(o, [s[0]] + t)
    ensures multiset([s[0]] + t) == multiset(s) + multiset{x}
  {
    PrecedesTotal(o, x, s[0]);
    SortedHead(o, s);
    forall k | 0 <= k < |t|
      ensures Precedes(o, s[0], t[k])
    {
      assert t[k] in multiset(t);
    }
    ConsSorted(o, s[0], t);
    assert s == [s[0]] + s[1..];
  }

  /** Places `x` into a sorted list. */
  function Insert(o: Ordering, x: Listed, s: seq<Listed>): (r: seq<Listed>)
    requires Sorted(o, s)
    ensures multiset(r) == multiset(s) + multiset{x}
    ensures Sorted(o, r)
  {
    if |s| == 0 then [x]
    else if Precedes(o, x, s[0]) then
      PrecedesAll(o, x, s);
      ConsSorted(o, x, s);
      [x] + s
    else
      var t := Insert(o, x, s[1..]);
      InsertStep(o, x, s, t);
      [s[0]] + t
  }

  /** The catalogue rearranged so that every pair appears in an order `o` allows. */
  function Sort(o: Ordering, s: seq<Listed>): (r: seq<Listed>)
    ensures multiset(r) == multiset(s)
    ensures Sorted(o, r)
  {
    if |s| == 0 then []
    else
      assert s == [s[0]] + s[1..];
      Insert(o, s[0], Sort(o, s[1..]))
  }

  /** Applies the ordering a filter selected, or leaves the query order when it selected none. */
  function Order(o: Option<Ordering>, listing: seq<Listed>): (r: seq<Listed>)
    ensures multiset(r) == multiset(listing)
    ensures o.Some? ==> Sorted(o.value, r)
    ensures o.None? ==> r == listing
  {
    match o
    case None => listing
    case Some(ord) => Sort(ord, listing)
  }

  // ---------------------------------------------------------------------------
  // Filters

  /** The filter a request gets when it names none. */
  const DefaultFilter: string := "most_issued"

  function FilterOrDefault(filter: Option<string>): string {
    match filter
    case None => DefaultFilter
    case Some(f) => f
  }

  /** The report's reading of a filter name: `author` ties go to the most issued. */
  function ReportOrdering(filter: string): Option<Ordering> {
    if filter == "most_issued" then Some(MostIssued)
    else if filter == "least_issued" then Some(LeastIssued)
    else if filter == "author" then Some(AuthorThenMostIssued)
    else None
  }

  /** The browse view's reading of a filter name: `author` ties go by title. */
  function BrowseOrdering(filter: string): Option<Ordering> {
    if filter == "most_issued" then Some(MostIssued)
    else if filter == "least_issued" then Some(LeastIssued)
    else if filter == "author" then Some(AuthorThenTitle)
    else None
  }

  /** The two views read every filter name alike except `author`. */
  lemma ViewsDifferOnlyOnAuthor(filter: string)
    ensures ReportOrdering(filter) == BrowseOrdering(filter) <==> filter != "author"
    ensures ReportOrdering(filter).None? <==> filter !in {"most_issued", "least_issued", "author"}
  {
  }

  // ---------------------------------------------------------------------------
  // The views

  datatype ReportPage = ReportPage(filterApplied: string, totalBooks: nat, report: seq<ReportRow>)

  datatype BrowsePage = BrowsePage(filter: string, booksCount: nat, books: seq<BrowseRow>)

  /** The report rows of a sorted listing carry its order on their own keys. */
  lemma ReportRowsKeepOrder(filter: string, ordered: seq<Listed>, rows: seq<ReportRow>)
    requires ReportOrdering(filter).Some? ==> Sorted(ReportOrdering(filter).value, ordered)
    requires |rows| == |ordered| && forall i :: 0 <= i < |rows| ==> rows[i] == ReportRowOf(ordered[i])
    ensures filter == "most_issued" ==>
      forall i, j :: 0 <= i < j < |rows| ==> rows[i].totalIssues >= rows[j].totalIssues
    ensures filter == "least_issued" ==>
      forall i, j :: 0 <= i < j < |rows| ==> rows[i].totalIssues <= rows[j].totalIssues
    ensures filter == "author" ==>
      forall i, j :: 0 <= i < j < |rows| ==>
        && StrLe(rows[i].author, rows[j].author)
        && (rows[i].author == rows[j].author ==> rows[i].totalIssues >= rows[j].totalIssues)
  {
    if filter == "author" {
      forall i, j | 0 <= i < j < |rows|
        ensures StrLe(rows[i].author, rows[j].author)
      {
        assert Precedes(AuthorThenMostIssued, ordered[i], ordered[j]);
        StrLeReflexive(rows[i].author);
      }
    }
  }

  /** The browse rows of a sorted listing carry its order on their own keys. */
  lemma BrowseRowsKeepOrder(filter: string, ordered: seq<Listed>, rows: seq<BrowseRow>)
    requires BrowseOrdering(filter).Some? ==> Sorted(BrowseOrdering(filter).value, ordered)
    requires |rows| == |ordered| && forall i :: 0 <= i < |rows| ==> rows[i] == BrowseRowOf(ordered[i])
    ensures filter == "most_issued" ==>
      forall i, j :: 0 <= i < j < |rows| ==> rows[i].timesIssued >= rows[j].timesIssued
    ensures filter == "least_issued" ==>
      forall i, j :: 0 <= i < j < |rows| ==> rows[i].timesIssued <= rows[j].timesIssued
    ensures filter == "author" ==>
      forall i, j :: 0 <= i < j < |rows| ==>
        && StrLe(rows[i].author, rows[j].author)
        && (rows[i].author == rows[j].author ==> StrLe(rows[i].title, rows[j].title))
  {
    if filter == "author" {
      forall i, j | 0 <= i < j < |rows|
        ensures StrLe(rows[i].author, rows[j].author)
      {
        assert Precedes(AuthorThenTitle, ordered[i], ordered[j]);
        StrLeReflexive(rows[i].author);
      }
    }
  }

  /**
   * The librarian's issue report over the rows a catalogue query returned,
   * in the order the query returned them.
   */
  function BookReport(filter: Option<string>, listing: seq<Listed>): (r: ReportPage)
    ensures r.filterApplied == FilterOrDefault(filter)
    ensures r.totalBooks == |listing| == |r.report|
    ensures multiset(r.report) == multiset(MapSeq(ReportRowOf, listing))
    ensures r.filterApplied == "most_issued" ==>
      forall i, j :: 0 <= i < j < |r.report| ==> r.report[i].totalIssues >= r.report[j].totalIssues
    ensures r.filterApplied == "least_issued" ==>
      forall i, j :: 0 <= i < j < |r.report| ==> r.report[i].totalIssues <= r.report[j].totalIssues
    ensures r.filterApplied == "author" ==>
      forall i, j :: 0 <= i < j < |r.report| ==>
        && StrLe(r.report[i].author, r.report[j].author)
        && (r.report[i].author == r.report[j].author ==> r.report[i].totalIssues >= r.report[j].totalIssues)
    ensures r.filterApplied !in {"most_issued", "least_issued", "author"} ==>
      r.report == MapSeq(ReportRowOf, listing)
  {
    var applied := FilterOrDefault(filter);
    var ordered := Order(ReportOrdering(applied), listing);
    MapPermutation(ReportRowOf, ordered, listing);
    var rows := MapSeq(ReportRowOf, ordered);
    ReportRowsKeepOrder(applied, ordered, rows);
    ReportPage(applied, |ordered|, rows)
  }

  /** The customer's browse list over the rows a catalogue query returned. */
  function BrowseBook(filter: Option<string>, listing: seq<Listed>): (r: BrowsePage)
    ensures r.filter == FilterOrDefault(filter)
    ensures r.booksCount == |listing| == |r.books|
    ensures multiset(r.books) == multiset(MapSeq(BrowseRowOf, listing))
    ensures r.filter == "most_issued" ==>
      forall i, j :: 0 <= i < j < |r.books| ==> r.books[i].timesIssued >= r.books[j].timesIssued
    ensures r.filter == "least_issued" ==>
      forall i, j :: 0 <= i < j < |r.books| ==> r.books[i].timesIssued <= r.books[j].timesIssued
    ensures r.filter == "author" ==>
      forall i, j :: 0 <= i < j < |r.books| ==>
        && StrLe(r.books[i].author, r.books[j].author)
        && (r.books[i].author == r.books[j].author ==> StrLe(r.books[i].title, r.books[j].title))
    ensures r.filter !in {"most_issued", "least_issued", "author"} ==>
      r.books == MapSeq(BrowseRowOf, listing)
  {
    var applied := FilterOrDefault(filter);
    var ordered := Order(BrowseOrdering(applied), listing);
    MapPermutation(BrowseRowOf, ordered, listing);
    var rows := MapSeq(BrowseRowOf, ordered);
    BrowseRowsKeepOrder(applied, ordered, rows);
    BrowsePage(applied, |ordered|, rows)
  }

  // ---------------------------------------------------------------------------
  // Counting the catalogue

  /** `listing` is what a query over all of `store` returns: each stored book exactly once. */
  predicate Enumerates(listing: seq<Listed>, store: Store) {
    && (forall i :: 0 <= i < |listing| ==> listing[i].id in store && store[listing[i].id] == listing[i].book)
    && (forall i, j :: 0 <= i < j < |listing| ==> listing[i].id != listing[j].id)
    && (forall id :: id in store ==> exists i :: 0 <= i < |listing| && listing[i].id == id)
  }

  /** The ids a listing names. */
  function IdsOf(listing: seq<Listed>): set<BookId> {
    set i | 0 <= i < |listing| :: listing[i].id
  }

  /** A listing whose ids are distinct names as many ids as it has rows. */
  lemma {:induction false} DistinctIdsCount(listing: seq<Listed>)
    requires forall i, j :: 0 <= i < j < |listing| ==> listing[i].id != listing[j].id
    ensures |IdsOf(listing)| == |listing|
  {
    if |listing| > 0 {
      var n := |listing| - 1;
      var rest := listing[..n];
      DistinctIdsCount(rest);
      assert IdsOf(listing) == IdsOf(rest) + {listing[n].id} by {
        forall id | id in IdsOf(listing)
          ensures id in IdsOf(rest) + {listing[n].id}
        {
          var i :| 0 <= i < |listing| && listing[i].id == id;
          if i < n {
            assert rest[i].id == id;
          }
        }
        forall id | id in IdsOf(rest)
          ensures id in IdsOf(listing)
        {
          var i :| 0 <= i < |rest| && rest[i].id == id;
          assert listing[i].id == id;
        }
      }
      assert listing[n].id !in IdsOf(rest);
    }
  }

  /** A full listing has one row per stored book, so the views' counts are the catalogue's size. */
  lemma EnumerationSize(listing: seq<Listed>, store: Store)
    requires Enumerates(listing, store)
    ensures |listing| == |store|
  {
    forall id | id in store
      ensures id in IdsOf(listing)
    {
      var i :| 0 <= i < |listing| && listing[i].id == id;
    }
    assert store.Keys == IdsOf(listing);
    DistinctIdsCount(listing);
  }
}

=== FILE: models.dfy ===
/**
 * The two persisted entities of BookTrak: a user's profile (role, saved-for-later
 * list, cart) and a catalogue book, together with the field limits and the
 * uniqueness constraint the database enforces when a librarian adds a book.
 */
module Models {
  import opened Results

  type BookId = int
  type UserId = int

  /** A price in hundredths of the currency unit: a two-place decimal held exactly. */
  type Cents = int

  /** The two roles a profile can carry; no other value can be stored. */
  datatype UserType = Librarian | Customer

  /** The role a profile gets when none is requested. */
  const DefaultUserType: UserType := Customer

  /**
   * A user's profile. `savedBooks` never repeats an id; `cartItems` may, each
   * occurrence standing for one unit to issue.
   */
  datatype Profile = Profile(userType: UserType, savedBooks: seq<BookId>, cartItems: seq<BookId>)

  /** The profile the store creates for a user: both lists empty. */
  function NewProfile(userType: UserType): (p: Profile)
    ensures p.userType == userType
    ensures |p.savedBooks| == 0 && |p.cartItems| == 0
  {
    Profile(userType, [], [])
  }

  /** A catalogue entry. `timesIssued` counts the copies handed out at checkout. */
  datatype Book = Book(
    title: string,
    author: string,
    isbn: string,
    price: Cents,
    coverImageUrl: Option<string>,
    timesIssued: nat)

  /** The catalogue: every stored book under its database id. */
  type Store = map<BookId, Book>

  /** One row of a catalogue query: a book together with its id. */
  datatype Listed = Listed(id: BookId, book: Book)

  const MaxTitleLength := 200
  const MaxAuthorLength := 100
  const MaxIsbnLength := 13
  /** A URL column keeps the framework's default length of 200. */
  const MaxCoverUrlLength := 200
  /** A decimal of at most ten digits, two after the point, is below 10^8 units, so below 10^10 cents. */
  const PriceLimit: Cents := 10_000_000_000

  predicate PriceFits(price: Cents) {
    -PriceLimit < price < PriceLimit
  }

  /** The column limits of a book row. */
  predicate ValidBook(b: Book) {
    && 0 < |b.title| <= MaxTitleLength
    && 0 < |b.author| <= MaxAuthorLength
    && 0 < |b.isbn| <= MaxIsbnLength
    && PriceFits(b.price)
    && (b.coverImageUrl.Some? ==> |b.coverImageUrl.value| <= MaxCoverUrlLength)
  }

  /** No two stored books share an isbn. */
  predicate IsbnUnique(store: Store) {
    forall a, b :: a in store && b in store && a != b ==> store[a].isbn != store[b].isbn
  }

  /** What the database guarantees of the catalogue at all times. */
  predicate WellFormedStore(store: Store) {
    && (forall id :: id in store ==> ValidBook(store[id]))
    && IsbnUnique(store)
  }

  predicate IsbnInUse(store: Store, isbn: string) {
    exists id :: id in store && store[id].isbn == isbn
  }

  /** The writable fields a librarian sends to add a book; the id and the counter are not among them. */
  datatype BookFields = BookFields(
    title: string,
    author: string,
    isbn: string,
    price: Cents,
    coverImageUrl: Option<string>)

  datatype Field = Title | Author | Isbn | Price | CoverImageUrl

  datatype BookError =
    | Blank(field: Field)
    | TooLong(field: Field)
    | TooManyDigits
    | IsbnTaken

  /** The field errors of one string column, in the order the framework reports them. */
  function TextErrors(field: Field, value: string, maxLength: nat): (errs: seq<BookError>)
    ensures |errs| == 0 <==> 0 < |value| <= maxLength
  {
    if |value| == 0 then [Blank(field)]
    else if |value| > maxLength then [TooLong(field)]
    else []
  }

  /** Every field error of an add-book request against the current catalogue, in field order. */
  function BookFieldErrors(store: Store, fields: BookFields): seq<BookError> {
    TextErrors(Title, fields.title, MaxTitleLength)
    + TextErrors(Author, fields.author, MaxAuthorLength)
    + TextErrors(Isbn, fields.isbn, MaxIsbnLength)
    + (if IsbnInUse(store, fields.isbn) then [IsbnTaken] else [])
    + (if PriceFits(fields.price) then [] else [TooManyDigits])
    + CoverUrlErrors(fields.coverImageUrl)
  }

  /** The cover URL may be absent or blank; a present one must fit its column. */
  function CoverUrlErrors(url: Option<string>): (errs: seq<BookError>)
    ensures |errs| == 0 <==> url.None? || |url.value| <= MaxCoverUrlLength
  {
    if url.Some? && |url.value| > MaxCoverUrlLength then [TooLong(CoverImageUrl)] else []
  }

  /** A new book row: the counter starts at zero. */
  function NewBook(fields: BookFields): (b: Book)
    ensures b.timesIssued == 0
    ensures b.isbn == fields.isbn && b.title == fields.title && b.author == fields.author
    ensures b.price == fields.price && b.coverImageUrl == fields.coverImageUrl
  {
    Book(fields.title, fields.author, fields.isbn, fields.price, fields.coverImageUrl, 0)
  }

  /**
   * Adding a book under the id the database assigns. A request whose isbn is
   * already stored, or whose fields break a column limit, is rejected with the
   * catalogue left as it was.
   */
  function CreateBook(store: Store, id: BookId, fields: BookFields): (r: Result<Store, seq<BookError>>)
    requires id !in store
    ensures r.Ok? <==> ValidBook(NewBook(fields)) && !IsbnInUse(store, fields.isbn)
    ensures IsbnInUse(store, fields.isbn) ==> r.Err? && IsbnTaken in r.error
    ensures fields.coverImageUrl.Some? && |fields.coverImageUrl.value| > MaxCoverUrlLength ==>
      r.Err? && TooLong(CoverImageUrl) in r.error
    ensures r.Err? ==> |r.error| > 0
    ensures r.Ok? ==> r.value.Keys == store.Keys + {id}
    ensures r.Ok? ==> r.value[id].timesIssued == 0 && r.value[id].isbn == fields.isbn
    ensures r.Ok? ==> forall k :: k in store ==> r.value[k] == store[k]
    ensures r.Ok? && WellFormedStore(store) ==> WellFormedStore(r.value)
  {
    var errs := BookFieldErrors(store, fields);
    if |errs| == 0 then Ok(store[id := NewBook(fields)]) else Err(errs)
  }
}

=== FILE: permissions.dfy ===
/** The two request gates: one for librarian endpoints, one for customer endpoints. */
module Permissions {
  import opened Results
  import opened Models

  /** The requesting user as the gates see it: logged in or not, and the profile if one exists. */
  datatype Caller = Caller(isAuthenticated: bool, profile: Option<Profile>)

  /** The customer gate asks only whether the caller is logged in. */
  function IsCustomer(c: Caller): (r: bool)
    ensures r <==> c.isAuthenticated
  {
    c.isAuthenticated
  }

  /** The librarian gate also needs a profile whose role is librarian. */
  function IsLibrarian(c: Caller): (r: bool)
    ensures r <==> c.isAuthenticated && c.profile.Some? && c.profile.value.userType == Librarian
    ensures r ==> IsCustomer(c)
  {
    c.isAuthenticated && c.profile.Some? && c.profile.value.userType == Librarian
  }

  /** A librarian passes every customer gate. */
  lemma LibrarianPassesCustomerGate(c: Caller)
    ensures IsLibrarian(c) ==> IsCustomer(c)
  {
  }

  /** The customer gate does not depend on the profile, so its role is never inspected. */
  lemma CustomerGateIgnoresProfile(c: Caller, other: Option<Profile>)
    ensures IsCustomer(c) == IsCustomer(c.(profile := other))
  {
  }

  /** A caller who is not logged in is turned away by both gates. */
  lemma AnonymousPassesNoGate(c: Caller)
    requires !c.isAuthenticated
    ensures !IsLibrarian(c) && !IsCustomer(c)
  {
  }
}

=== FILE: results.dfy ===
/** Failure-carrying values shared by every module of the BookTrak model. */
module Results {

  /** A value that may be absent: an optional request field, a missing profile. */
  datatype Option<+T> = None | Some(value: T)

  /** The outcome of a validator or a view: a value, or the error the backend reports. */
  datatype Result<+T, +E> = Ok(value: T) | Err(error: E)
}

=== FILE: seqs.dfy ===
/** Sequence facts used by the profile lists and the catalogue orderings. */
module Seqs {

  /** No value occurs twice in `s`. */
  predicate NoDuplicates<T(==)>(s: seq<T>) {
    forall i, j :: 0 <= i < j < |s| ==> s[i] != s[j]
  }

  /** Appending a value that is not yet present keeps a list free of duplicates. */
  lemma AppendFresh<T>(s: seq<T>, x: T)
    requires x !in s
    ensures NoDuplicates(s) ==> NoDuplicates(s + [x])
  {
  }

  /** The position of the first occurrence of `x` in `s`. */
  function IndexOf<T(==)>(s: seq<T>, x: T): (i: nat)
    requires x in s
    ensures i < |s| && s[i] == x
    ensures x !in s[..i]
  {
    if s[0] == x then 0 else 1 + IndexOf(s[1..], x)
  }

  /** Python's `list.remove`: drop the first occurrence of `x`, keeping the rest in order. */
  function RemoveFirst<T(==)>(s: seq<T>, x: T): (r: seq<T>)
    requires x in s
    ensures |r| == |s| - 1
    ensures forall j :: 0 <= j < IndexOf(s, x) ==> r[j] == s[j]
    ensures forall j :: IndexOf(s, x) <= j < |r| ==> r[j] == s[j + 1]
    ensures multiset(r) == multiset(s) - multiset{x}
  {
    assert s == [s[0]] + s[1..];
    assert multiset(s) == multiset(s[1..]) + multiset{s[0]};
    if s[0] == x then s[1..]
    else
      var t := RemoveFirst(s[1..], x);
      assert IndexOf(s, x) == 1 + IndexOf(s[1..], x);
      [s[0]] + t
  }

  /** Applies `f` to every element, keeping the order. */
  function MapSeq<A, B>(f: A -> B, s: seq<A>): (r: seq<B>)
    ensures |r| == |s|
    ensures forall i :: 0 <= i < |s| ==> r[i] == f(s[i])
  {
    if |s| == 0 then [] else [f(s[0])] + MapSeq(f, s[1..])
  }

  /** Taking out the element at `k` takes one copy of it out of the multiset. */
  lemma RemoveAtMultiset<T>(s: seq<T>, k: nat)
    requires k < |s|
    ensures multiset(s) == multiset(s[..k] + s[k + 1..]) + multiset{s[k]}
  {
    assert s == s[..k] + [s[k]] + s[k + 1..];
  }

  /** Projecting a list with position `k` taken out is projecting it and then taking position `k` out. */
  lemma MapRemoveAtSeq<A, B>(f: A -> B, b: seq<A>, k: nat)
    requires k < |b|
    ensures MapSeq(f, b[..k] + b[k + 1..]) == MapSeq(f, b)[..k] + MapSeq(f, b)[k + 1..]
  {
    var mb := MapSeq(f, b);
    var rest := b[..k] + b[k + 1..];
    var lhs := MapSeq(f, rest);
    var rhs := mb[..k] + mb[k + 1..];
    forall i | 0 <= i < |rest|
      ensures lhs[i] == rhs[i]
    {
      if i < k {
        assert rest[i] == b[i];
        assert rhs[i] == mb[i];
      } else {
        assert rest[i] == b[i + 1];
        assert rhs[i] == mb[i + 1];
      }
    }
  }

  /** Projecting a list with one element taken out is projecting it and then taking that element's image out. */
  lemma MapRemoveAt<A, B>(f: A -> B, b: seq<A>, k: nat)
    requires k < |b|
    ensures multiset(MapSeq(f, b)) == multiset(MapSeq(f, b[..k] + b[k + 1..])) + multiset{f(b[k])}
  {
    RemoveAtMultiset(MapSeq(f, b), k);
    MapRemoveAtSeq(f, b, k);
  }

  /** The first element and the rest of a list make up its multiset. */
  lemma MultisetCons<T>(s: seq<T>)
    requires |s| > 0
    ensures multiset(s) == multiset(s[1..]) + multiset{s[0]}
  {
    assert s == [s[0]] + s[1..];
  }

  /** If `b` permutes `a` and holds `a`'s head at `k`, then `b` without position `k` permutes `a`'s tail. */
  lemma TailPermutation<T>(a: seq<T>, b: seq<T>, k: nat)
    requires multiset(a) == multiset(b) && |a| > 0
    requires k < |b| && b[k] == a[0]
    ensures multiset(a[1..]) == multiset(b[..k] + b[k + 1..])
  {
    MultisetCons(a);
    RemoveAtMultiset(b, k);
    assert multiset(a[1..]) == multiset(a) - multiset{a[0]};
    assert multiset(b[..k] + b[k + 1..]) == multiset(b) - multiset{b[k]};
  }

  /** Projecting two permutations of one another gives two permutations of one another. */
  lemma {:induction false} MapPermutation<A, B>(f: A -> B, a: seq<A>, b: seq<A>)
    requires multiset(a) == multiset(b)
    ensures multiset(MapSeq(f, a)) == multiset(MapSeq(f, b))
  {
    if |a| == 0 {
      assert |multiset(b)| == 0;
    } else {
      assert a[0] in multiset(b);
      var k := IndexOf(b, a[0]);
      TailPermutation(a, b, k);
      MapPermutation(f, a[1..], b[..k] + b[k + 1..]);
      MapRemoveAt(f, b, k);
      MultisetCons(MapSeq(f, a));
      assert MapSeq(f, a)[1..] == MapSeq(f, a[1..]);
    }
  }
}

=== FILE: serializers.dfy ===
/**
 * The request validators of BookTrak and the two row shapes the catalogue views
 * return. Each validator either passes its input through or reports the
 * errors the framework would send back.
 */
module Serializers {
  import opened Results
  import opened Models

  // ---------------------------------------------------------------------------
  // Registration

  /** A user account as far as registration and login are concerned. */
  datatype Account = Account(username: string, email: string, isActive: bool)

  /** All accounts and all profiles, each keyed by the user's id. */
  datatype Directory = Directory(accounts: map<UserId, Account>, profiles: map<UserId, Profile>)

  datatype RegistrationRequest = RegistrationRequest(
    username: string,
    email: string,
    password: string,
    confirmPassword: string,
    userType: Option<string>)

  /** The registration fields that carry their own length and blank checks. */
  datatype RegistrationField = UsernameField | EmailField | PasswordField | ConfirmPasswordField

  datatype RegistrationError =
    | FieldBlank(field: RegistrationField)
    | FieldTooLong(field: RegistrationField)
    | BadUsernameCharacters
    | UsernameTaken
    | EmailTaken
    | InvalidUserType
    | PasswordMismatch

  /** Column limits of the framework's user table. */
  const MaxUsernameLength := 150
  const MaxEmailLength := 254
  const MaxPasswordLength := 128

  /** A character the username validator accepts: a word character or one of `.@+-`. */
  predicate UsernameChar(c: char) {
    || 'a' <= c <= 'z' || 'A' <= c <= 'Z' || '0' <= c <= '9'
    || c == '_' || c == '.' || c == '@' || c == '+' || c == '-'
  }

  predicate UsernameChars(username: string) {
    forall i :: 0 <= i < |username| ==> UsernameChar(username[i])
  }

  /** The checks each field passes on its own, before any check that looks at the directory. */
  predicate FieldsWellFormed(req: RegistrationRequest) {
    && 0 < |req.username| <= MaxUsernameLength
    && UsernameChars(req.username)
    && |req.email| <= MaxEmailLength
    && 0 < |req.password| <= MaxPasswordLength
    && 0 < |req.confirmPassword|
  }

  predicate UsernameInUse(dir: Directory, username: string) {
    exists id :: id in dir.accounts && dir.accounts[id].username == username
  }

  predicate EmailInUse(dir: Directory, email: string) {
    exists id :: id in dir.accounts && dir.accounts[id].email == email
  }

  /** No two accounts share an email address. */
  predicate EmailsDistinct(dir: Directory) {
    forall a, b :: a in dir.accounts && b in dir.accounts && a != b ==>
      dir.accounts[a].email != dir.accounts[b].email
  }

  // ---------------------------------------------------------------------------
  // Email normalisation of the user manager

  /** ASCII lower-casing of one character; every other character is kept. */
  function LowerChar(c: char): char {
    if 'A' <= c <= 'Z' then (c as int + 32) as char else c
  }

  function Lower(s: string): (r: string)
    ensures |r| == |s|
    ensures forall i :: 0 <= i < |s| ==> r[i] == LowerChar(s[i])
  {
    seq(|s|, i requires 0 <= i < |s| => LowerChar(s[i]))
  }

  /** The position of the last occurrence of `x` in `s`, if any. */
  function LastIndexOf(s: string, x: char): (r: Option<nat>)
    ensures r.None? <==> x !in s
    ensures r.Some? ==> r.value < |s| && s[r.value] == x && x !in s[r.value + 1..]
  {
    if |s| == 0 then None
    else if s[|s| - 1] == x then Some(|s| - 1)
    else
      var r := LastIndexOf(s[..|s| - 1], x);
      assert r.Some? ==> s[r.value + 1..] == s[..|s| - 1][r.value + 1..] + [s[|s| - 1]];
      r
  }

  /**
   * What the user manager stores for an email: the part after the last `@`
   * lower-cased, the rest unchanged; an address without `@` is kept as it is.
   */
  function NormalizeEmail(email: string): string {
    match LastIndexOf(email, '@')
    case None => email
    case Some(k) => email[..k + 1] + Lower(email[k + 1..])
  }

  /** Normalising never changes the length or the local part, and only lower-cases characters. */
  lemma NormalizeEmailShape(email: string)
    ensures |NormalizeEmail(email)| == |email|
    ensures '@' !in email ==> NormalizeEmail(email) == email
    ensures forall i :: 0 <= i < |email| ==>
      NormalizeEmail(email)[i] == email[i] || NormalizeEmail(email)[i] == LowerChar(email[i])
    ensures LastIndexOf(NormalizeEmail(email), '@') == LastIndexOf(email, '@')
  {
    var at := LastIndexOf(email, '@');
    if at.Some? {
      var k := at.value;
      NormalizeEmailParts(email, k);
      NormalizeEmailChars(email, k);
      NormalizeKeepsLastAt(email, k);
    }
  }

  /**
   * With the last `@` at `k`, the result keeps the address up to and
   * including that `@` and lower-cases only the domain after it.
   */
  lemma NormalizeEmailParts(email: string, k: nat)
    requires LastIndexOf(email, '@') == Some(k)
    ensures |NormalizeEmail(email)| == |email|
    ensures NormalizeEmail(email)[..k + 1] == email[..k + 1]
    ensures NormalizeEmail(email)[k + 1..] == Lower(email[k + 1..])
  {
    var n := email[..k + 1] + Lower(email[k + 1..]);
    assert NormalizeEmail(email) == n;
    assert n[..k + 1] == email[..k + 1];
    assert n[k + 1..] == Lower(email[k + 1..]);
  }

  /** Character by character, normalising keeps a character or lower-cases it. */
  lemma NormalizeEmailChars(email: string, k: nat)
    requires LastIndexOf(email, '@') == Some(k)
    ensures forall i :: 0 <= i < |email| ==>
      NormalizeEmail(email)[i] == email[i] || NormalizeEmail(email)[i] == LowerChar(email[i])
  {
    NormalizeEmailParts(email, k);
    var n := NormalizeEmail(email);
    var domain := email[k + 1..];
    forall i | 0 <= i < |email|
      ensures n[i] == email[i] || n[i] == LowerChar(email[i])
    {
      if i > k {
        assert n[i] == n[k + 1..][i - k - 1];
        assert domain[i - k - 1] == email[i];
      } else {
        assert n[i] == n[..k + 1][i];
      }
    }
  }

  /** Normalising never changes the length of an address. */
  lemma NormalizeEmailLength(email: string)
    ensures |NormalizeEmail(email)| == |email|
  {
    match LastIndexOf(email, '@')
    case None =>
    case Some(k) => NormalizeEmailParts(email, k);
  }

  /** Lower-casing the domain leaves the last `@` where it was. */
  lemma NormalizeKeepsLastAt(email: string, k: nat)
    requires LastIndexOf(email, '@') == Some(k)
    ensures LastIndexOf(NormalizeEmail(email), '@') == Some(k)
  {
    var domain := email[k + 1..];
    var tail := Lower(domain);
    var n := email[..k + 1] + tail;
    assert '@' !in tail by {
      forall i | 0 <= i < |tail| ensures tail[i] != '@' {
        assert domain[i] != '@';
      }
    }
    assert n[k + 1..] == tail;
    LastIndexUnique(n, '@', k);
    assert NormalizeEmail(email) == n;
  }

  /** The last occurrence is the one with no later occurrence. */
  lemma {:induction false} LastIndexUnique(s: string, x: char, k: nat)
    requires k < |s| && s[k] == x && x !in s[k + 1..]
    ensures LastIndexOf(s, x) == Some(k)
  {
    if k < |s| - 1 {
      assert s[|s| - 1] == s[k + 1..][|s| - 1 - (k + 1)];
      assert s[..|s| - 1][k + 1..] == s[k + 1..|s| - 1];
      var mid := s[k + 1..|s| - 1];
      assert x !in mid by {
        forall i | 0 <= i < |mid| ensures mid[i] != x {
          assert mid[i] == s[k + 1..][i];
        }
      }
      LastIndexUnique(s[..|s| - 1], x, k);
    }
  }

  /** Lower-casing twice is lower-casing once. */
  lemma LowerIdempotent(s: string)
    ensures Lower(Lower(s)) == Lower(s)
  {
  }

  /** Normalising an address twice is normalising it once. */
  lemma NormalizeEmailIdempotent(email: string)
    ensures NormalizeEmail(NormalizeEmail(email)) == NormalizeEmail(email)
  {
    NormalizeEmailShape(email);
    match LastIndexOf(email, '@')
    case None =>
    case Some(k) =>
      var n := NormalizeEmail(email);
      var domain := email[k + 1..];
      assert n == email[..k + 1] + Lower(domain);
      assert n[..k + 1] == email[..k + 1];
      assert n[k + 1..] == Lower(domain);
      LowerIdempotent(domain);
      assert NormalizeEmail(n) == n[..k + 1] + Lower(n[k + 1..]);
  }

  // ---------------------------------------------------------------------------
  // Registration validation

  /** The role field: one of the two choices, `customer` when left out. */
  function ParseUserType(choice: Option<string>): (r: Result<UserType, RegistrationError>)
    ensures choice.None? ==> r == Ok(DefaultUserType)
    ensures r.Ok? <==> choice.None? || choice.value == "librarian" || choice.value == "customer"
    ensures r.Ok? && r.value == Librarian <==> choice == Some("librarian")
    ensures r.Err? ==> r.error == InvalidUserType
  {
    match choice
    case None => Ok(DefaultUserType)
    case Some(s) =>
      if s == "librarian" then Ok(Librarian)
      else if s == "customer" then Ok(Customer)
      else Err(InvalidUserType)
  }

  /** A blank username stops at the blank check; otherwise every failing username check is reported. */
  function UsernameErrors(dir: Directory, username: string): (r: seq<RegistrationError>)
    ensures |r| == 0 <==>
      0 < |username| <= MaxUsernameLength && UsernameChars(username) && !UsernameInUse(dir, username)
    ensures |username| == 0 ==> r == [FieldBlank(UsernameField)]
    ensures PasswordMismatch !in r && EmailTaken !in r
  {
    if |username| == 0 then [FieldBlank(UsernameField)]
    else
      (if |username| > MaxUsernameLength then [FieldTooLong(UsernameField)] else [])
      + (if !UsernameChars(username) then [BadUsernameCharacters] else [])
      + (if UsernameInUse(dir, username) then [UsernameTaken] else [])
  }

  /** The email's own checks run first; the uniqueness check runs only on an address that passed them. */
  function EmailErrors(dir: Directory, email: string): (r: seq<RegistrationError>)
    ensures |r| == 0 <==> |email| <= MaxEmailLength && !EmailInUse(dir, email)
    ensures EmailInUse(dir, email) && |email| <= MaxEmailLength ==> r == [EmailTaken]
    ensures PasswordMismatch !in r
  {
    if |email| > MaxEmailLength then [FieldTooLong(EmailField)]
    else if EmailInUse(dir, email) then [EmailTaken]
    else []
  }

  function PasswordErrors(password: string, confirmPassword: string): (r: seq<RegistrationError>)
    ensures |r| == 0 <==> 0 < |password| <= MaxPasswordLength && 0 < |confirmPassword|
    ensures |password| == 0 ==> FieldBlank(PasswordField) in r
    ensures PasswordMismatch !in r
  {
    (if |password| == 0 then [FieldBlank(PasswordField)]
     else if |password| > MaxPasswordLength then [FieldTooLong(PasswordField)]
     else [])
    + (if |confirmPassword| == 0 then [FieldBlank(ConfirmPasswordField)] else [])
  }

  /** The per-field errors, in field order. */
  function RegistrationFieldErrors(dir: Directory, req: RegistrationRequest): (r: seq<RegistrationError>)
    ensures |r| == 0 <==>
      && FieldsWellFormed(req)
      && !UsernameInUse(dir, req.username)
      && !EmailInUse(dir, req.email)
      && ParseUserType(req.userType).Ok?
    ensures PasswordMismatch !in r
    ensures |req.username| == 0 ==> FieldBlank(UsernameField) in r && UsernameTaken !in r
    ensures |req.password| == 0 ==> FieldBlank(PasswordField) in r
    ensures EmailInUse(dir, req.email) && |req.email| <= MaxEmailLength ==> EmailTaken in r
  {
    UsernameErrors(dir, req.username)
    + EmailErrors(dir, req.email)
    + PasswordErrors(req.password, req.confirmPassword)
    + (if ParseUserType(req.userType).Err? then [InvalidUserType] else [])
  }

  /**
   * Full validation of a registration. The password pair is compared only
   * once every field has passed, so a mismatch is reported on its own.
   * On success the result is the role the new profile will carry.
   */
  function ValidateRegistration(dir: Directory, req: RegistrationRequest): (r: Result<UserType, seq<RegistrationError>>)
    ensures r.Ok? <==>
      && FieldsWellFormed(req)
      && !UsernameInUse(dir, req.username)
      && !EmailInUse(dir, req.email)
      && ParseUserType(req.userType).Ok?
      && req.password == req.confirmPassword
    ensures req.password != req.confirmPassword ==> r.Err?
    ensures |req.username| == 0 ==> r.Err? && FieldBlank(UsernameField) in r.error && UsernameTaken !in r.error
    ensures |req.password| == 0 ==> r.Err? && FieldBlank(PasswordField) in r.error
    ensures EmailInUse(dir, req.email) && |req.email| <= MaxEmailLength ==> r.Err? && EmailTaken in r.error
    ensures r.Err? ==> |r.error| > 0
    ensures r.Err? && PasswordMismatch in r.error ==> r.error == [PasswordMismatch]
    ensures r.Err? && PasswordMismatch in r.error ==>
      && FieldsWellFormed(req)
      && !UsernameInUse(dir, req.username)
      && !EmailInUse(dir, req.email)
      && ParseUserType(req.userType).Ok?
    ensures r.Ok? ==> r.value == ParseUserType(req.userType).value
  {
    var fieldErrors := RegistrationFieldErrors(dir, req);
    if |fieldErrors| > 0 then Err(fieldErrors)
    else if req.password != req.confirmPassword then Err([PasswordMismatch])
    else Ok(ParseUserType(req.userType).value)
  }

  /**
   * Registering a user under the id the database assigns: a new active
   * account and a new profile with the requested role and empty lists.
   * The account keeps the email as the user manager normalises it, while
   * the uniqueness check compared the address as submitted.
   * Nobody else's account or profile changes.
   */
  function Register(dir: Directory, newId: UserId, req: RegistrationRequest): (r: Result<Directory, seq<RegistrationError>>)
    requires newId !in dir.accounts && newId !in dir.profiles
    ensures r.Ok? <==> ValidateRegistration(dir, req).Ok?
    ensures req.password != req.confirmPassword ==> r.Err?
    ensures EmailInUse(dir, req.email) ==> r.Err?
    ensures r.Ok? ==> r.value.accounts == dir.accounts[newId := Account(req.username, NormalizeEmail(req.email), true)]
    ensures r.Ok? ==> r.value.profiles.Keys == dir.profiles.Keys + {newId}
    ensures r.Ok? ==> forall id :: id in dir.profiles ==> r.value.profiles[id] == dir.profiles[id]
    ensures r.Ok? ==> r.value.profiles[newId].savedBooks == [] && r.value.profiles[newId].cartItems == []
    ensures r.Ok? && req.userType.None? ==> r.value.profiles[newId].userType == Customer
    ensures r.Ok? ==> (r.value.profiles[newId].userType == Librarian <==> req.userType == Some("librarian"))
  {
    match ValidateRegistration(dir, req)
    case Err(errs) => Err(errs)
    case Ok(userType) =>
      Ok(Directory(
        dir.accounts[newId := Account(req.username, NormalizeEmail(req.email), true)],
        dir.profiles[newId := NewProfile(userType)]))
  }

  /** A request from the registration form with the given username and email and a matching password pair. */
  function SampleRequest(username: string, email: string): RegistrationRequest {
    RegistrationRequest(username, email, "secret", "secret", None)
  }

  /**
   * The same mixed-case address registered twice: the first account stores
   * it with its domain lower-cased, so the second exact-match check finds
   * nothing and a second account with the same stored email is created.
   */
  lemma RegisterTwiceSharesEmail()
    ensures var first := Register(Directory(map[], map[]), 1, SampleRequest("u1", "b@X.io"));
      && first.Ok?
      && first.value.accounts[1].email == "b@x.io"
      && var second := Register(first.value, 2, SampleRequest("u2", "b@X.io"));
         && second.Ok?
         && second.value.accounts[2].email == "b@x.io"
         && !EmailsDistinct(second.value)
  {
    var dir := Directory(map[1 := Account("u1", "b@x.io", true)], map[1 := NewProfile(Customer)]);
    FirstSampleRegistration(dir);
    var second := Register(dir, 2, SampleRequest("u2", "b@X.io"));
    SecondSampleRegistration(dir);
    assert second.value.accounts[1].email == second.value.accounts[2].email;
  }

  lemma FirstSampleRegistration(dir: Directory)
    requires dir == Directory(map[1 := Account("u1", "b@x.io", true)], map[1 := NewProfile(Customer)])
    ensures Register(Directory(map[], map[]), 1, SampleRequest("u1", "b@X.io")) == Ok(dir)
  {
    SampleNormalizes();
    assert UsernameChar('u') && UsernameChar('1');
    assert UsernameChars("u1");
  }

  lemma SecondSampleRegistration(dir: Directory)
    requires dir == Directory(map[1 := Account("u1", "b@x.io", true)], map[1 := NewProfile(Customer)])
    ensures Register(dir, 2, SampleRequest("u2", "b@X.io")).Ok?
    ensures Register(dir, 2, SampleRequest("u2", "b@X.io")).value.accounts[2].email == "b@x.io"
  {
    SampleNormalizes();
    assert UsernameChar('u') && UsernameChar('2');
    assert UsernameChars("u2");
    assert !UsernameInUse(dir, "u2") by {
      assert dir.accounts.Keys == {1};
      assert dir.accounts[1].username[1] != "u2"[1];
    }
    assert !EmailInUse(dir, "b@X.io") by {
      assert dir.accounts.Keys == {1};
      assert dir.accounts[1].email[2] != "b@X.io"[2];
    }
  }

  /** The manager lower-cases the domain of the sample address. */
  lemma SampleNormalizes()
    ensures NormalizeEmail("b@X.io") == "b@x.io"
  {
    var e := "b@X.io";
    assert e[2..] == "X.io";
    LastIndexUnique(e, '@', 1);
    assert LastIndexOf(e, '@') == Some(1);
    assert e[..2] == "b@";
    assert LowerChar('X') == 'x';
    assert Lower("X.io") == "x.io";
    assert NormalizeEmail(e) == "b@" + "x.io";
  }

  /** Adding an account under a fresh id whose email is unused keeps emails distinct. */
  lemma AddAccountKeepsDistinct(dir: Directory, newId: UserId, account: Account)
    requires newId !in dir.accounts
    ensures !EmailInUse(dir, account.email) && EmailsDistinct(dir) ==> EmailsDistinct(Directory(dir.accounts[newId := account], dir.profiles))
  {
  }

  /**
   * Registration as the uniqueness check intends it: the check compares the
   * address the account will store, so emails stay distinct.
   */
  function RegisterNormalized(dir: Directory, newId: UserId, req: RegistrationRequest): (r: Result<Directory, seq<RegistrationError>>)
    requires newId !in dir.accounts && newId !in dir.profiles
    ensures r.Ok? <==>
      && FieldsWellFormed(req)
      && !UsernameInUse(dir, req.username)
      && !EmailInUse(dir, NormalizeEmail(req.email))
      && ParseUserType(req.userType).Ok?
      && req.password == req.confirmPassword
    ensures EmailInUse(dir, NormalizeEmail(req.email)) ==> r.Err?
    ensures r.Ok? ==> r.value.accounts == dir.accounts[newId := Account(req.username, NormalizeEmail(req.email), true)]
    ensures r.Ok? ==> r.value.profiles.Keys == dir.profiles.Keys + {newId}
    ensures r.Ok? ==> forall id :: id in dir.profiles ==> r.value.profiles[id] == dir.profiles[id]
    ensures r.Ok? && EmailsDistinct(dir) ==> EmailsDistinct(r.value)
  {
    NormalizeEmailIdempotent(req.email);
    NormalizeEmailLength(req.email);
    var normalized := req.(email := NormalizeEmail(req.email));
    assert FieldsWellFormed(normalized) == FieldsWellFormed(req);
    var r := Register(dir, newId, normalized);
    AddAccountKeepsDistinct(dir, newId, Account(req.username, NormalizeEmail(req.email), true));
    r
  }

  // ---------------------------------------------------------------------------
  // Login

  /** What the authentication backend answered for the submitted credentials. */
  datatype AuthOutcome = NoMatch | Match(user: UserId, isActive: bool)

  datatype LoginError = MissingCredentials | AccountDisabled | BadCredentials

  /** A form value counts as given only when present and not empty. */
  predicate Given(value: Option<string>) {
    value.Some? && |value.value| > 0
  }

  /**
   * Login validation: both credentials must be given, the backend must know
   * the user, and the account must be active; only then is the user returned.
   */
  function ValidateLogin(username: Option<string>, password: Option<string>, auth: AuthOutcome): (r: Result<UserId, LoginError>)
    ensures !(Given(username) && Given(password)) ==> r == Err(MissingCredentials)
    ensures Given(username) && Given(password) && auth.NoMatch? ==> r == Err(BadCredentials)
    ensures Given(username) && Given(password) && auth.Match? && !auth.isActive ==> r == Err(AccountDisabled)
    ensures r.Ok? <==> Given(username) && Given(password) && auth.Match? && auth.isActive
    ensures r.Ok? ==> auth.Match? && r.value == auth.user
  {
    if Given(username) && Given(password) then
      match auth
      case Match(user, isActive) =>
        if isActive then Ok(user) else Err(AccountDisabled)
      case NoMatch => Err(BadCredentials)
    else
      Err(MissingCredentials)
  }

  // ---------------------------------------------------------------------------
  // Book-id and checkout validators

  datatype FieldError = BookDoesNotExist | NoBookSelected

  /** The `book_id` check shared by the save-later and cart requests: the book must be stored. */
  function ValidateBookId(store: Store, bookId: BookId): (r: Result<BookId, FieldError>)
    ensures r.Ok? <==> bookId in store
    ensures r.Ok? ==> r.value == bookId
    ensures r.Err? ==> r.error == BookDoesNotExist
  {
    if bookId in store then Ok(bookId) else Err(BookDoesNotExist)
  }

  /** The checkout list must not be empty; repeats are allowed and kept. */
  function ValidateBooksToIssue(booksToIssue: seq<BookId>): (r: Result<seq<BookId>, FieldError>)
    ensures r.Ok? <==> |booksToIssue| > 0
    ensures r.Ok? ==> r.value == booksToIssue
    ensures r.Err? ==> r.error == NoBookSelected
  {
    if |booksToIssue| == 0 then Err(NoBookSelected) else Ok(booksToIssue)
  }

  // ---------------------------------------------------------------------------
  // Row shapes of the report and browse views

  /** A report row: the id under `bookId`, the counter under `totalIssues`. */
  datatype ReportRow = ReportRow(bookId: BookId, title: string, author: string, totalIssues: nat)

  /** A browse row: every book field except the isbn. */
  datatype BrowseRow = BrowseRow(
    id: BookId,
    title: string,
    author: string,
    price: Cents,
    coverImageUrl: Option<string>,
    timesIssued: nat)

  function ReportRowOf(l: Listed): ReportRow {
    ReportRow(l.id, l.book.title, l.book.author, l.book.timesIssued)
  }

  function BrowseRowOf(l: Listed): BrowseRow {
    BrowseRow(l.id, l.book.title, l.book.author, l.book.price, l.book.coverImageUrl, l.book.timesIssued)
  }

  /** Two books give the same report row exactly when they agree on id, title, author and counter. */
  lemma ReportRowExposes(a: Listed, b: Listed)
    ensures ReportRowOf(a) == ReportRowOf(b) <==>
      a.id == b.id && a.book.title == b.book.title && a.book.author == b.book.author
      && a.book.timesIssued == b.book.timesIssued
  {
  }

  /** Two books give the same browse row exactly when they differ at most in their isbn. */
  lemma BrowseRowWithholdsIsbn(a: Listed, b: Listed)
    ensures BrowseRowOf(a) == BrowseRowOf(b) <==> a.id == b.id && a.book.(isbn := b.book.isbn) == b.book
  {
  }
}
